=== FILE: README.md ===
# ArcadeMenu in Dafny

A model of the decision and arithmetic core of ArcadeMenu, a fullscreen
kiosk menu for arcade cabinets. It shows a horizontally scrolling row of
items over a background. Arrow keys move the selection. `r` and `f` change
the master volume through a mixer shell command and flash an overlay icon.
Return, or any configured activation key, suspends the menu, runs the
selected item's command, and brings the menu back up from its configuration.
Background music cycles through a playlist whenever nothing is playing.

The state is one immutable `Menu` record. It holds the fields of the
`ArcadeMenu` class plus the locals of its run loop (`running`, `key_down`,
`animation_time`). Every side effect becomes an emitted `Action`:
- play a sound;
- play a music track;
- run the mixer command;
- launch an item's command.

Every frame becomes a list of `Draw` calls.

Modules:

- `Common`: `Option` and the byte type used for configuration text.
- `Strings`: `ReplaceAll` as the source's in-place find/splice loop, proved
  equal to a reference left-to-right, non-overlapping substitution.
  `Int2Str` as decimal rendering, with a parse round trip.
- `ArcadeMenu`:
  - the header's constants and the item, configuration, event, action and
    state datatypes;
  - the mixer command built by `update_sound`;
  - the activation-key mapping;
  - loading from a configuration, with the first item preselected;
  - start-up;
  - the reachable-state invariant.
- `Selection`: one polled event. This covers the key-repeat latch, Left and
  Right with saturation, volume up and down with clamping and overlay timers,
  and the activation of the selected item's command. That includes the
  activation-key loop, which keeps scanning the reloaded key list. It ends
  with the re-marking of the selection flags.
- `Music`: the playlist cursor and its cyclic order.
- `Layout`: the scroll offset that centres the selected item, the
  left-to-right row of item rectangles, vertical centring, and the volume
  overlay rectangle.
- `MenuLoop`: one frame and the loop around it. A frame handles the events,
  runs the music check, composes the draws and counts down the overlay
  timers.

Where the configuration file or `rand()` is read, the model takes it as a
parameter:
- a `Config` value stands for the parsed XML, with each item's pixel width
  already derived from its image;
- a `roll` stands for the random number that seeds the music cursor.

One `Config` and one `roll` serve every reload of a whole run (see
"## Left out").

Three behaviours of the code that the model keeps as they are:
- The selection index survives a relaunch. The reload at ArcadeMenu.cpp:345
  rebuilds the items with the first one flagged but leaves `selected_id`
  alone, and the flag loop at ArcadeMenu.cpp:381-384 then re-marks that
  index (`Selection.ActivationDispatchesSelected`).
- Any non-empty activation key string maps to its first `char`, whatever
  its length (ArcadeMenu.cpp:211). Only the empty string maps to 0
  (`ArcadeMenu.KeyFromConfig`).
- Arming one volume overlay disarms the other (ArcadeMenu.cpp:353-354,
  362-363), so at most one overlay timer is ever running
  (`ArcadeMenu.Bounded`, `MenuLoop.FrameOverlays`).

## Model

| member | source | states |
|---|---|---|
| Strings.Find | ArcadeMenu.cpp:50 | `std::string::find`: the result is an occurrence at or after the start, and no occurrence lies between the start and it; `None` means none at all from the start |
| Strings.ReplaceAll | ArcadeMenu.cpp:48-55 | the splice loop terminates even when `to` contains `from`, and equals the left-to-right non-overlapping substitution that never rescans inserted text; the string comes back unchanged when `from` does not occur |
| Strings.SubstituteSkipsPrefix | ArcadeMenu.cpp:50-53 | a stretch in which no occurrence starts is copied unchanged by the substitution |
| Strings.SubstituteNoMatch | ArcadeMenu.cpp:50 | with no occurrence of `from`, the substitution is the identity |
| Strings.SpliceStep | ArcadeMenu.cpp:51-52 | one replace-and-advance step of the loop preserves the final result |
| Strings.NatToStr | ArcadeMenu.cpp:39-46 | a natural number renders as a non-empty digit string without leading zeros; 0 renders as `"0"` |
| Strings.Int2Str | ArcadeMenu.cpp:39-46 | an integer renders as an optional minus sign, present exactly for negatives, followed by decimal digits with no leading zero; 0 renders as exactly `"0"` |
| Strings.Int2StrRoundTrip | ArcadeMenu.cpp:39-46 | parsing the rendered text gives back the integer |
| ArcadeMenu.VolumeTemplateHasOnePlaceholder | ArcadeMenu.h:77-78 | the mixer template contains the placeholder `<vol>` exactly once, right after `amixer -D pulse sset Master ` |
| ArcadeMenu.VolumeCommandShape | ArcadeMenu.cpp:277-278 | substituting the rendered volume into the template gives the template with its one placeholder replaced by the decimal volume |
| ArcadeMenu.UpdateSound | ArcadeMenu.cpp:275-282 | the command handed to the shell is the template with the placeholder replaced by the decimal volume |
| ArcadeMenu.InitialVolumeCommand | ArcadeMenu.h:73-78 | at the initial volume the mixer command is `amixer -D pulse sset Master 50%` |
| ArcadeMenu.CharToKeycode | ArcadeMenu.cpp:211 | widening a `char`, taken as signed, yields a key code in [-128, 128): ASCII keeps its code and bytes from 0x80 up become negative |
| ArcadeMenu.KeyFromConfig | ArcadeMenu.cpp:210-211 | a key string maps to its first character, or 0 when empty |
| ArcadeMenu.ConfigKeys | ArcadeMenu.cpp:206-212 | the activation keys are the configured key strings mapped one to one, in order |
| ArcadeMenu.KeyFromConfigRoundTrip | ArcadeMenu.cpp:211 | a configured ASCII key is found again as its own code, whatever follows it in the string |
| ArcadeMenu.LoadItems | ArcadeMenu.cpp:227-252 | one item per configured entry, with image name and command copied, the loader's width, the common item height, and exactly the first item preselected |
| ArcadeMenu.Load | ArcadeMenu.cpp:191-252 | loading replaces the items, keys, playlist, sound and image names from the configuration and puts the music cursor in range; volume, timers, selection index and loop state are left as they were |
| ArcadeMenu.LoadKeepsBounded | ArcadeMenu.cpp:197-252 | reloading keeps the state bounded when the configuration has at least as many items as the menu had |
| ArcadeMenu.LoadIdempotent | ArcadeMenu.cpp:150-212 | `Load` stands for the clear of the items in `close()` (through `destroy_window`, line 155) followed by `loadMedia`, which clears the music and key lists before refilling them; so loading twice from the same configuration is loading once |
| ArcadeMenu.Start | ArcadeMenu.cpp:57-256 | start-up (`init`, then `init_sound`, then `create_window` calling `loadMedia`) runs the mixer command for volume 50 and then loads the items, keys, playlist, select sound and image names from the configuration, with the music cursor in range, selection 0, both overlays off, the latch clear and the loop running; with at least one item the invariant holds |
| ArcadeMenu.SyncedMeansExactlyOne | ArcadeMenu.cpp:381-384 | when the flags mirror an in-range index, exactly one item is flagged selected |
| ArcadeMenu.ConstantsConsistent | ArcadeMenu.h:29-81 | the initial volume 50 lies in [10, 100] on the delta grid; both timers start off and arming shows an overlay; a fresh item is unselected with zero size; selection and music cursor start at 0 |
| Selection.SyncFlags | ArcadeMenu.cpp:381-384 | after the flag loop exactly the item at the index is flagged, and nothing else about any item changes |
| Selection.Relaunch | ArcadeMenu.cpp:342-346 | a dispatch launches the captured command and then reissues the mixer command for the unchanged volume; the items, keys, playlist, sound and image names are replaced from the configuration, while the selection index, volume, both timers, latch, running flag and animation clock survive; a bounded state with a fitting configuration stays bounded |
| Selection.ActivationLoop | ArcadeMenu.cpp:371-379 | the activation-key loop dispatches the captured command once per matching entry, scanning the reloaded key list after each dispatch, and the state is reloaded exactly when it dispatched at least once |
| Selection.MoveLeft | ArcadeMenu.cpp:324-330 | Left decrements the index and saturates at 0 |
| Selection.MoveRight | ArcadeMenu.cpp:332-339 | Right increments the index and saturates at the last item |
| Selection.VolumeUp | ArcadeMenu.cpp:348-355 | volume up adds the delta and caps at the maximum |
| Selection.VolumeDown | ArcadeMenu.cpp:357-364 | volume down subtracts the delta and floors at the minimum |
| Selection.KeySwitch | ArcadeMenu.cpp:316-366 | the `switch` changes only the index, animation clock, volume and timers, except that Return reloads; the volume changes only on `r` and `f`; latch and running flag are untouched |
| Selection.HandleKey | ArcadeMenu.cpp:309-385 | after a handled press the flags mirror the index |
| Selection.Step | ArcadeMenu.cpp:299-392 | quit only clears `running`; a press sets the latch and a release or other event clears it; only an unlatched press acts, leaving the flags synced; every other event emits nothing and keeps items and index |
| Selection.LatchSuppressesRepeat | ArcadeMenu.cpp:309 | a press while the latch is set changes nothing and emits nothing |
| Selection.ReleaseClearsLatch | ArcadeMenu.cpp:387-392 | a release or any other non-quit event only clears the latch |
| Selection.QuitOnlyStopsRunning | ArcadeMenu.cpp:302-305 | quit only stops the loop |
| Selection.LeftSaturates | ArcadeMenu.cpp:324-330 | Left moves to the previous item or stays at 0, resets the animation, requests the select sound even at the bound, re-marks the flags and changes neither volume nor keys |
| Selection.RightSaturates | ArcadeMenu.cpp:332-339 | Right moves to the next item or stays at the last, with the same side effects as Left |
| Selection.NoDispatchOutsideCharRange | ArcadeMenu.cpp:371-379 | no activation key, being a widened `char`, ever matches an arrow key code |
| Selection.VolumeUpArmsOverlay | ArcadeMenu.cpp:348-355 | `r` raises the volume by the delta up to the maximum, arms the up overlay, disarms the down overlay, issues the mixer command for the new volume first, and keeps the volume in range |
| Selection.VolumeDownArmsOverlay | ArcadeMenu.cpp:357-364 | `f` mirrors `r` with the floor at the minimum and the down overlay armed |
| Selection.ActivationDispatchesSelected | ArcadeMenu.cpp:314-384 | Return or an activation key dispatches the command of the item selected before the press, once per dispatch; when `r` or `f` is also an activation key, the volume changes and its mixer command is issued first, and every relaunch reissues the mixer command for the new volume; the index is kept across the reload and re-marked on the reloaded items |
| Selection.DispatchesCountOccurrences | ArcadeMenu.cpp:371-379 | when the reload yields the same keys, the loop dispatches once per occurrence of the pressed key, so a key listed twice dispatches twice |
| Selection.PressDispatchesWhenKeysUnchanged | ArcadeMenu.cpp:342-379 | with an unchanged configuration a press dispatches once for Return plus once per occurrence among the activation keys |
| Selection.KeySwitchKeepsBounded | ArcadeMenu.cpp:316-366 | the switch keeps the index on an item, the volume on the delta grid within bounds, and at most one overlay armed |
| Selection.PressPreservesInv | ArcadeMenu.cpp:309-385 | a handled press is defined and keeps the reachable-state invariant |
| Selection.StepPreservesInv | ArcadeMenu.cpp:299-392 | every event is defined and keeps the reachable-state invariant |
| Selection.PressSelectsExactlyOne | ArcadeMenu.cpp:381-384 | after every handled press exactly one item is selected, the one at the index |
| Music.Tick | ArcadeMenu.cpp:396-401 | when nothing plays and the playlist is non-empty, the track under the cursor is requested and the cursor stays in range; otherwise nothing is requested and the cursor stays |
| Music.IdleTicksCycle | ArcadeMenu.cpp:396-401 | n idle checks request the tracks at `(cursor + j) mod len` in order, and leave the cursor at `(cursor + n) mod len` |
| Music.PlayingHolds | ArcadeMenu.cpp:396 | while music plays, a check neither requests a track nor moves the cursor |
| Layout.Pitch | ArcadeMenu.cpp:431 | an item takes its width plus the border, which is at least the border |
| Layout.Span | ArcadeMenu.cpp:460 | the first k items take at least k borders |
| Layout.StartOffset | ArcadeMenu.cpp:417-433 | the scroll offset never moves the row to the right |
| Layout.ItemRect | ArcadeMenu.cpp:440-442 | an item rectangle starts at the given edge, has the item's size and is vertically centred, up to rounding |
| Layout.RowFrom | ArcadeMenu.cpp:438-461 | the row from a left edge has one rectangle per item, the first at that edge, each with its item's size and vertically centred |
| Layout.RowLayout | ArcadeMenu.cpp:417-461 | the frame's row starts at half the screen width plus the scroll offset |
| Layout.RowAdjacent | ArcadeMenu.cpp:460 | each item starts where the previous item's width plus border ends |
| Layout.RowPositions | ArcadeMenu.cpp:438-461 | in a row starting at `x`, item i's left edge is `x` plus the pitches of the items before it |
| Layout.OffsetCentresSelected | ArcadeMenu.cpp:420-433 | with item k selected, the offset is minus the pitches before it minus half its own pitch, rounded down |
| Layout.OffsetWithoutSelection | ArcadeMenu.cpp:420-433 | with no item selected, the offset is minus the whole row |
| Layout.RowLayoutPositions | ArcadeMenu.cpp:417-461 | item i's x is half the screen width plus the offset plus the pitches before it |
| Layout.SelectedItemCentred | ArcadeMenu.cpp:417-461 | the selected item's unanimated left edge is half the screen width minus half its pitch |
| Layout.UniformSpan | ArcadeMenu.cpp:426-460 | with uniform widths w, the span before item k is `k * (w + 64)` |
| Layout.VolumeRect | ArcadeMenu.cpp:466-470 | the overlay rectangle is 128 by 64 and flush with the bottom-right corner of the screen |
| MenuLoop.HandleEvents | ArcadeMenu.cpp:299-392 | draining the events keeps the invariant; the loop stops exactly when a quit was among them; the volume changes only if a key was pressed |
| MenuLoop.TickTimer | ArcadeMenu.cpp:472-481 | an overlay icon is drawn exactly while its timer is positive, and only then does the timer count down |
| MenuLoop.AdvanceAnimation | ArcadeMenu.cpp:446-448 | the animation clock advances by the scaled frame time once per item flagged selected |
| MenuLoop.AnimationAdvancesOnce | ArcadeMenu.cpp:446-448 | with exactly one item flagged, the animation clock advances by the scaled frame time once per frame |
| MenuLoop.ItemDraws | ArcadeMenu.cpp:438-461 | one draw per item, in row order, into that item's rectangle |
| MenuLoop.Compose | ArcadeMenu.cpp:403-484 | a frame clears, draws the background over the whole screen, then each item into its row rectangle, then the overlay icons that are showing, in the volume rectangle, then presents |
| MenuLoop.Frame | ArcadeMenu.cpp:296-493 | a frame keeps the invariant, and the loop stops exactly when the frame polled a quit |
| MenuLoop.FrameOverlays | ArcadeMenu.cpp:466-481 | at most one overlay icon is drawn; each shows in the volume rectangle exactly when its timer is running, and only a running timer counts down by the frame time |
| MenuLoop.FrameMusic | ArcadeMenu.cpp:396-401 | when nothing plays, the frame requests the track under the cursor after the events' actions and advances the cursor cyclically; otherwise neither happens |
| MenuLoop.FrameAdvancesAnimation | ArcadeMenu.cpp:446-448 | each frame advances the animation clock by `frame_time * 5` |
| MenuLoop.Run | ArcadeMenu.cpp:296-493 | the loop keeps the invariant and does nothing once stopped |
| MenuLoop.QuitFrameIsLast | ArcadeMenu.cpp:296-305 | the frame that polls a quit is completed, and it is the last frame |
| MenuLoop.QuitEndsRun | ArcadeMenu.cpp:296-305 | once any frame has polled a quit, the loop has stopped |

## Left out

- SDL bring-up and teardown are not modelled: `init`, `init_sound`, `create_window`, `destroy_window` and `close`. A relaunch is the `Launch` action plus the reload. Their failure paths (`return false`) are not modelled either.
- XML parsing and BMP or texture loading are foreign calls. The parsed configuration is the `Config` parameter. Each item's `base_pixel_width` is supplied already derived from the image's aspect ratio, because that product is a float.
- `Log`, `DebugLog` and the `system()` calls are I/O. The model keeps the command strings as `Launch` and `RunMixer` actions. The exit code of a launched command is never used by the source.
- The `sin`-driven inflation of the selected item is floating point. `Copy` carries the unanimated rectangle plus an `animated` flag.
- Float rounding is not modelled. The animation clock, both overlay timers and the frame time are `float` in the source and `real` in the model. The scroll offset `menu_start_offset` (ArcadeMenu.cpp:417) is a `float` in the source and an `int` in `Layout.StartOffset`: it only accumulates integers, so the two agree while its magnitude stays below 2^24.
- The frame time from `std::chrono` and the value of `rand()` are inputs: `FrameInput.frameTime` and `roll`.
- The audio backend's "is music playing" query is the input `FrameInput.musicPlaying`.
- Int32 overflow of `master_volume`, `selected_id` or the layout sums cannot happen within the invariant's ranges for realistic item counts and widths. It is not modelled.
- `Selection.KeySwitch` requires the index to be in range. The source reads `items[selected_id]` before the switch, which is undefined for an empty list. Reading the item is likewise a precondition of `Selection.HandleKey`.
- `ArcadeMenu.Load` requires a non-empty playlist, because `rand() % 0` is undefined.
- `MenuLoop.HandleEvents`, `MenuLoop.Frame` and `MenuLoop.Run` require a configuration with at least as many items as the menu has. A reload from a shorter list leaves `selected_id` past the end, and the next press then reads out of range. That case is a precondition, not a modelled error.
- `MenuLoop.Run`: the run loop's ensures states the invariant and the no-op once stopped. That a quit ends it is stated by `MenuLoop.QuitEndsRun` and `MenuLoop.QuitFrameIsLast`.
- `Selection.Relaunches`: the action list of n dispatches states only its length and first pair. The full list is used through `Selection.ActivationLoop` and `Selection.ActivationDispatchesSelected`.
- ArcadeMenu.CharToKeycode: whether `char` is signed is implementation-defined. The model chooses a signed `char`, so a key byte from 0x80 up becomes a negative code. With an unsigned `char` it would become 128 to 255. Either way the code stays below the arrow key codes.
- MenuLoop.HandleEvents, MenuLoop.Frame, MenuLoop.Run: one `cfg` and one `roll` are passed through every event of every frame. So every relaunch in a run rereads an identical configuration, and every `rand()` behind the music cursor yields the same value. A configuration file edited while a launched program runs is not modelled.
- MenuLoop.HandleEvents, MenuLoop.Frame, MenuLoop.Run: these require the invariant, which includes a selection index on an item, so they need a non-empty item list. The source handles quit, release and other events, the music check and drawing without fault on an empty list. It is undefined only at the first unlatched press, which reads `items[selected_id]`. Runs over an empty item list are not modelled.
- Strings.ReplaceAll requires a non-empty `from`. With an empty `from`, `find` matches at the current position every time, and the position advances only as fast as the string grows, so the source loop never ends. The one caller passes `<vol>`.

=== FILE: common.dfy ===
/** Small shared vocabulary: an optional value and an unsigned byte. */
module Common {

  /** A value that may be absent (the `npos` of a string search, the track not played). */
  datatype Option<+T> = None | Some(value: T)

  /** One byte of a `std::string` as read from the configuration file. */
  newtype uint8 = x: int | 0 <= x < 0x100
}

=== FILE: layout.dfy ===
/** The integer geometry of one frame: the scroll offset that centres the
    selected item, the left-to-right row of item rectangles, and the fixed
    volume-overlay rectangle. */
module Layout {
  import opened ArcadeMenu

  datatype Rect = Rect(x: int, y: int, w: int, h: int)

  /** The background covers the whole screen. */
  const ScreenRect: Rect := Rect(0, 0, ScreenWidth, ScreenHeight)

  /** The row space an item takes: its width plus the border. */
  function Pitch(it: Item): (r: int)
    ensures r >= BorderSize
  {
    it.baseWidth + BorderSize
  }

  /** The row space taken by the first `k` items. */
  function Span(items: seq<Item>, k: nat): (r: int)
    requires k <= |items|
    ensures r >= k * BorderSize
    decreases k
  {
    if k == 0 then 0 else Pitch(items[0]) + Span(items[1..], k - 1)
  }

  /** The scroll offset as the source computes it from the flags: walk the
      row, subtracting each unselected item's pitch, until the first
      selected item, of which half the pitch (rounded down) is subtracted. */
  function StartOffset(items: seq<Item>): (r: int)
    ensures r <= 0
    decreases |items|
  {
    if |items| == 0 then 0
    else if items[0].selected then -(Pitch(items[0]) / 2)
    else StartOffset(items[1..]) - Pitch(items[0])
  }

  /** The unanimated rectangle of an item whose left edge is at `x`,
      centred vertically. */
  function ItemRect(it: Item, x: int): (r: Rect)
    ensures r.x == x && r.w == it.baseWidth && r.h == it.baseHeight
    ensures r.y + it.baseHeight / 2 == ScreenHeight / 2
  {
    Rect(x, ScreenHeight / 2 - it.baseHeight / 2, it.baseWidth, it.baseHeight)
  }

  /** The row from left edge `x`: each item starts where the previous one's
      pitch ends. */
  function RowFrom(items: seq<Item>, x: int): (r: seq<Rect>)
    ensures |r| == |items|
    ensures |items| > 0 ==> r[0].x == x
    ensures forall i :: 0 <= i < |items| ==> r[i] == ItemRect(items[i], r[i].x)
    decreases |items|
  {
    if |items| == 0 then []
    else [ItemRect(items[0], x)] + RowFrom(items[1..], x + Pitch(items[0]))
  }

  /** The frame's row: it starts at the screen centre shifted by the offset. */
  function RowLayout(items: seq<Item>): (r: seq<Rect>)
    ensures |r| == |items|
    ensures |items| > 0 ==> r[0].x == ScreenWidth / 2 + StartOffset(items)
  {
    RowFrom(items, ScreenWidth / 2 + StartOffset(items))
  }

  /** Item `i` of a row starting at `x` sits at `x` plus the span before it. */
  lemma {:induction false} RowPositions(items: seq<Item>, x: int)
    ensures forall i :: 0 <= i < |items| ==> RowFrom(items, x)[i] == ItemRect(items[i], x + Span(items, i))
    decreases |items|
  {
    if |items| > 0 {
      var tail := RowFrom(items[1..], x + Pitch(items[0]));
      RowPositions(items[1..], x + Pitch(items[0]));
      assert RowFrom(items, x) == [ItemRect(items[0], x)] + tail;
      forall i | 0 < i < |items|
        ensures RowFrom(items, x)[i].x == x + Span(items, i)
      {
        assert RowFrom(items, x)[i] == tail[i - 1];
        assert items[1..][i - 1] == items[i];
      }
    }
  }

  /** Each item starts where the previous item's pitch ends. */
  lemma RowAdjacent(items: seq<Item>, x: int, i: nat)
    requires 0 < i < |items|
    ensures RowFrom(items, x)[i].x == RowFrom(items, x)[i - 1].x + Pitch(items[i - 1])
  {
    RowPositions(items, x);
    SpanStep(items, i - 1);
  }

  /** The span grows by one pitch per item. */
  lemma {:induction false} SpanStep(items: seq<Item>, k: nat)
    requires k < |items|
    ensures Span(items, k + 1) == Span(items, k) + Pitch(items[k])
    decreases k
  {
    if k > 0 {
      assert items[1..][k - 1] == items[k];
      SpanStep(items[1..], k - 1);
    }
  }

  /** When exactly item `k` is flagged, the offset is minus the span before
      it and half its own pitch. */
  lemma {:induction false} OffsetCentresSelected(items: seq<Item>, k: nat)
    requires k < |items|
    requires SelectionSynced(items, k)
    ensures StartOffset(items) == -(Span(items, k) + Pitch(items[k]) / 2)
    decreases k
  {
    if k > 0 {
      assert SelectionSynced(items[1..], k - 1) by {
        forall i | 0 <= i < |items| - 1
          ensures items[1..][i].selected <==> i == k - 1
        {
          assert items[1..][i] == items[i + 1];
        }
      }
      OffsetCentresSelected(items[1..], k - 1);
    }
  }

  /** With no item flagged (a stale index), the whole row is scrolled off to
      the left: the offset is minus the full span. */
  lemma {:induction false} OffsetWithoutSelection(items: seq<Item>)
    requires forall i :: 0 <= i < |items| ==> !items[i].selected
    ensures StartOffset(items) == -Span(items, |items|)
    decreases |items|
  {
    if |items| > 0 {
      assert forall i :: 0 <= i < |items| - 1 ==> items[1..][i] == items[i + 1];
      OffsetWithoutSelection(items[1..]);
    }
  }

  /** Each item's left edge in the frame's row is its starting edge `x`,
      the screen centre plus the offset, plus the span before the item. */
  lemma RowLayoutPositions(items: seq<Item>, x: int)
    requires x == ScreenWidth / 2 + StartOffset(items)
    ensures forall i :: 0 <= i < |items| ==> RowLayout(items)[i] == ItemRect(items[i], x + Span(items, i))
  {
    RowPositions(items, x);
  }

  /** The selected item's unanimated rectangle is centred on the screen's
      vertical midline, up to the rounding of half its pitch. */
  lemma SelectedItemCentred(items: seq<Item>, k: nat)
    requires k < |items|
    requires SelectionSynced(items, k)
    ensures RowLayout(items)[k].x == ScreenWidth / 2 - Pitch(items[k]) / 2
  {
    OffsetCentresSelected(items, k);
    RowPositions(items, ScreenWidth / 2 + StartOffset(items));
  }

  /** With uniform widths the span before item k is k pitches, so the offset
      is `-(k * (w + border) + (w + border) / 2)`. */
  lemma {:induction false} UniformSpan(items: seq<Item>, k: nat, w: nat)
    requires k <= |items|
    requires forall i :: 0 <= i < |items| ==> items[i].baseWidth == w
    ensures Span(items, k) == k * (w + BorderSize)
    decreases k
  {
    if k > 0 {
      assert forall i :: 0 <= i < |items| - 1 ==> items[1..][i] == items[i + 1];
      UniformSpan(items[1..], k - 1, w);
    }
  }

  /** Width and height of the volume overlay. */
  const VolumeRectWidth: int := 128
  const VolumeRectHeight: int := 64

  /** The volume overlay sits flush in the bottom-right corner of the screen. */
  function VolumeRect(): (r: Rect)
    ensures r.w == VolumeRectWidth && r.h == VolumeRectHeight
    ensures r.x + r.w == ScreenRect.w && r.y + r.h == ScreenRect.h
    ensures 0 <= r.x && 0 <= r.y
  {
    Rect(ScreenRect.w - VolumeRectWidth, ScreenRect.h - VolumeRectHeight, VolumeRectWidth, VolumeRectHeight)
  }
}

=== FILE: loop.dfy ===
/** One frame of the menu's run loop and the loop itself: drain the events,
    refill the music, compose the draw list, count the overlay timers down,
    and go round again until a quit has been seen. */
module MenuLoop {
  import opened ArcadeMenu
  import opened Selection
  import Music
  import opened Layout

  /** One presentation call. `Copy` draws a texture (named by the image it
      was loaded from) into a rectangle; `animated` marks the selected item,
      whose drawn rectangle is additionally inflated by the animated border. */
  datatype Draw = Clear | Copy(texture: string, rect: Rect, animated: bool) | Present

  /** What the outside world supplies to one frame: the pending events, the
      audio backend's answer to "is music playing", and the duration of the
      previous frame in seconds. */
  datatype FrameInput = FrameInput(events: seq<Event>, musicPlaying: bool, frameTime: real)

  datatype FrameResult = FrameResult(menu: Menu, actions: seq<Action>, draws: seq<Draw>)

  /** Drain the pending events in order. */
  function HandleEvents(m: Menu, events: seq<Event>, cfg: Config, roll: nat): (r: (Menu, seq<Action>))
    requires Inv(m) && Fits(m, cfg)
    ensures Inv(r.0) && Fits(r.0, cfg)
    ensures r.0.running == (m.running && Quit !in events)
    ensures r.0.masterVolume == m.masterVolume || exists i :: 0 <= i < |events| && events[i].KeyPress?
    decreases |events|
  {
    if |events| == 0 then (m, [])
    else
      StepPreservesInv(m, events[0], cfg, roll);
      var s := Step(m, events[0], cfg, roll);
      var rest := HandleEvents(s.0, events[1..], cfg, roll);
      assert events == [events[0]] + events[1..];
      (rest.0, s.1 + rest.1)
  }

  /** An overlay timer: while positive it counts down by the frame time and
      its icon is drawn; otherwise it is left alone and nothing is drawn. */
  function TickTimer(t: real, frameTime: real): (r: (real, bool))
    ensures r.1 <==> t > 0.0
    ensures r.1 ==> r.0 == t - frameTime
    ensures !r.1 ==> r.0 == t
  {
    if t > 0.0 then (t - frameTime, true) else (t, false)
  }

  /** The animation clock advances by `frameTime * AnimationSpeed` once for
      every item drawn as selected. */
  function AdvanceAnimation(items: seq<Item>, t: real, frameTime: real): (r: real)
    ensures r == t + (CountSelected(items) as real) * (frameTime * AnimationSpeed)
    decreases |items|
  {
    if |items| == 0 then t
    else AdvanceAnimation(items[1..], if items[0].selected then t + frameTime * AnimationSpeed else t, frameTime)
  }

  /** With exactly one item selected, the clock advances by one step. */
  lemma AnimationAdvancesOnce(items: seq<Item>, k: nat, t: real, frameTime: real)
    requires k < |items| && SelectionSynced(items, k)
    ensures AdvanceAnimation(items, t, frameTime) == t + frameTime * AnimationSpeed
  {
    SyncedMeansExactlyOne(items, k);
  }

  /** One draw call per item, left to right, each into its row rectangle. */
  function ItemDraws(items: seq<Item>, rects: seq<Rect>): (r: seq<Draw>)
    requires |rects| == |items|
    ensures |r| == |items|
    ensures forall i :: 0 <= i < |items| ==> r[i] == Copy(items[i].name, rects[i], items[i].selected)
  {
    seq(|items|, i requires 0 <= i < |items| => Copy(items[i].name, rects[i], items[i].selected))
  }

  /** The frame's draw list, back to front: clear, background over the whole
      screen, the items, the overlay icons whose timers were running, present. */
  function Compose(m: Menu, upShown: bool, downShown: bool): (r: seq<Draw>)
    ensures |r| == |m.items| + 3 + (if upShown then 1 else 0) + (if downShown then 1 else 0)
    ensures r[0] == Clear && r[1] == Copy(m.backgroundImage, ScreenRect, false) && r[|r| - 1] == Present
    ensures forall i :: 0 <= i < |m.items| ==> r[2 + i] == Copy(m.items[i].name, RowLayout(m.items)[i], m.items[i].selected)
    ensures upShown ==> r[|m.items| + 2] == Copy(m.volumeUpImage, VolumeRect(), false)
    ensures downShown ==> r[|r| - 2] == Copy(m.volumeDownImage, VolumeRect(), false)
  {
    var up := if upShown then [Copy(m.volumeUpImage, VolumeRect(), false)] else [];
    var down := if downShown then [Copy(m.volumeDownImage, VolumeRect(), false)] else [];
    [Clear, Copy(m.backgroundImage, ScreenRect, false)] + ItemDraws(m.items, RowLayout(m.items)) + up + down + [Present]
  }

  /** One pass of the run loop. */
  function Frame(m: Menu, input: FrameInput, cfg: Config, roll: nat): (r: FrameResult)
    requires Inv(m) && Fits(m, cfg)
    ensures Inv(r.menu) && Fits(r.menu, cfg)
    ensures r.menu.running == (m.running && Quit !in input.events)
  {
    var h := HandleEvents(m, input.events, cfg, roll);
    var m1 := h.0;
    var tick := Music.Tick(m1.playlist, m1.musicId, input.musicPlaying);
    var music := if tick.1.Some? then [PlayMusic(tick.1.value, SoundVolume)] else [];
    var up := TickTimer(m1.volumeUpTimer, input.frameTime);
    var down := TickTimer(m1.volumeDownTimer, input.frameTime);
    var draws := Compose(m1, up.1, down.1);
    var m2 := m1.(musicId := tick.0,
                  animationTime := AdvanceAnimation(m1.items, m1.animationTime, input.frameTime),
                  volumeUpTimer := up.0, volumeDownTimer := down.0);
    FrameResult(m2, h.1 + music, draws)
  }

  /** The overlays in one frame: an icon is drawn, into the volume
      rectangle, exactly when its timer was running after the events were
      handled, and only a running timer counts down. The two never show
      together, so at most one icon follows the items. */
  lemma FrameOverlays(m: Menu, input: FrameInput, cfg: Config, roll: nat)
    requires Inv(m) && Fits(m, cfg)
    ensures var m1 := HandleEvents(m, input.events, cfg, roll).0;
      var r := Frame(m, input, cfg, roll);
      var n := |m1.items|;
      && |r.draws| == n + 3 + (if m1.volumeUpTimer > 0.0 || m1.volumeDownTimer > 0.0 then 1 else 0)
      && (m1.volumeUpTimer > 0.0 ==>
            (r.draws[n + 2] == Copy(m1.volumeUpImage, VolumeRect(), false)
             && r.menu.volumeUpTimer == m1.volumeUpTimer - input.frameTime))
      && (m1.volumeDownTimer > 0.0 ==>
            (r.draws[n + 2] == Copy(m1.volumeDownImage, VolumeRect(), false)
             && r.menu.volumeDownTimer == m1.volumeDownTimer - input.frameTime))
      && (!(m1.volumeUpTimer > 0.0) ==> r.menu.volumeUpTimer == m1.volumeUpTimer)
      && (!(m1.volumeDownTimer > 0.0) ==> r.menu.volumeDownTimer == m1.volumeDownTimer)
  {
  }

  /** The music check of one frame: when nothing is playing, the track under
      the cursor is requested after the events' actions and the cursor moves
      on cyclically; while music plays, nothing is requested and the cursor
      stays. */
  lemma FrameMusic(m: Menu, input: FrameInput, cfg: Config, roll: nat)
    requires Inv(m) && Fits(m, cfg)
    ensures var h := HandleEvents(m, input.events, cfg, roll);
      var r := Frame(m, input, cfg, roll);
      && (!input.musicPlaying ==>
            (r.actions == h.1 + [PlayMusic(h.0.playlist[h.0.musicId], SoundVolume)]
             && r.menu.musicId == (h.0.musicId + 1) % |h.0.playlist|))
      && (input.musicPlaying ==> r.actions == h.1 && r.menu.musicId == h.0.musicId)
  {
  }

  /** Between selection changes the animation clock grows by the scaled
      frame time each frame. */
  lemma FrameAdvancesAnimation(m: Menu, input: FrameInput, cfg: Config, roll: nat)
    requires Inv(m) && Fits(m, cfg)
    ensures var m1 := HandleEvents(m, input.events, cfg, roll).0;
      Frame(m, input, cfg, roll).menu.animationTime == m1.animationTime + input.frameTime * AnimationSpeed
  {
    var m1 := HandleEvents(m, input.events, cfg, roll).0;
    AnimationAdvancesOnce(m1.items, m1.selectedId, m1.animationTime, input.frameTime);
  }

  /** The loop: frames run while `running` holds; a quit ends the loop after
      the frame in which it was polled has been completed. */
  function Run(m: Menu, frames: seq<FrameInput>, cfg: Config, roll: nat): (r: (Menu, seq<Action>))
    requires Inv(m) && Fits(m, cfg)
    ensures Inv(r.0) && Fits(r.0, cfg)
    ensures !m.running ==> r == (m, [])
    decreases |frames|
  {
    if !m.running || |frames| == 0 then (m, [])
    else
      var f := Frame(m, frames[0], cfg, roll);
      var rest := Run(f.menu, frames[1..], cfg, roll);
      (rest.0, f.actions + rest.1)
  }

  /** A frame that polls a quit is completed and is the last one run. */
  lemma QuitFrameIsLast(m: Menu, frames: seq<FrameInput>, cfg: Config, roll: nat)
    requires Inv(m) && Fits(m, cfg)
    requires m.running && |frames| > 0 && Quit in frames[0].events
    ensures var f := Frame(m, frames[0], cfg, roll);
      Run(m, frames, cfg, roll) == (f.menu, f.actions)
  {
    var f := Frame(m, frames[0], cfg, roll);
    assert Run(f.menu, frames[1..], cfg, roll) == (f.menu, []);
    assert f.actions + [] == f.actions;
  }

  /** Once a quit has been polled in any frame, the loop has stopped. */
  lemma {:induction false} QuitEndsRun(m: Menu, frames: seq<FrameInput>, cfg: Config, roll: nat, j: nat)
    requires Inv(m) && Fits(m, cfg)
    requires j < |frames| && Quit in frames[j].events
    ensures !Run(m, frames, cfg, roll).0.running
    decreases j
  {
    if m.running && j > 0 {
      var f := Frame(m, frames[0], cfg, roll);
      assert frames[1..][j - 1] == frames[j];
      QuitEndsRun(f.menu, frames[1..], cfg, roll, j - 1);
    }
  }
}

=== FILE: menu.dfy ===
/** The state of the arcade menu: its constants, the item record, the
    configuration it loads, and the loading step itself. */
module ArcadeMenu {
  import opened Common
  import opened Strings

  // Screen and layout constants.
  const ScreenWidth: int := 1920
  const ScreenHeight: int := 1080
  const BorderSize: int := 64
  /** `max_item_height_percent * SCREEN_HEIGHT` = `0.666f * 1080`, truncated to int. */
  const MaxItemPixelHeight: nat := 719

  // Sound constants.
  /** `SDL_MIX_MAXVOLUME / 2`, the volume of music and the select sound. */
  const SoundVolume: nat := 64
  const InitialMasterVolume: int := 50
  const MasterVolumeDelta: int := 10
  const MasterVolumeMin: int := MasterVolumeDelta
  const MasterVolumeMax: int := 100
  const MasterVolumeCommand: string := "amixer -D pulse sset Master <vol>%"
  const MasterVolumeCommandKey: string := "<vol>"

  // Overlay timers (seconds).
  const TimerOff: real := -1.0
  const VolumeChangeTimerMax: real := 1.0
  const AnimationSpeed: real := 5.0

  /** SDL key codes: printable keys are their character code, arrow keys are
      their scancode with bit 30 set. */
  type Keycode = int
  const KeyReturn: Keycode := 13
  const KeyF: Keycode := 102
  const KeyR: Keycode := 114
  const KeyRight: Keycode := 0x4000_004F
  const KeyLeft: Keycode := 0x4000_0050
  const KeyDown: Keycode := 0x4000_0051
  const KeyUp: Keycode := 0x4000_0052

  /** One menu entry. The image handles are left out; `aspect` (a float) is
      folded into the given `baseWidth`. */
  datatype Item = Item(name: string, command: string, selected: bool, baseWidth: nat, baseHeight: nat)

  /** A freshly constructed item. */
  const DefaultItem: Item := Item("", "", false, 0, 0)

  /** One `<item>` of the configuration, with the pixel width the image
      loader derives from the image's aspect ratio. */
  datatype ItemConfig = ItemConfig(image: string, command: string, pixelWidth: nat)

  /** What one read of the configuration file yields. */
  datatype Config = Config(
    backgroundImage: string,
    musics: seq<string>,
    keys: seq<seq<uint8>>,
    selectSound: string,
    volumeUpImage: string,
    volumeDownImage: string,
    items: seq<ItemConfig>)

  /** Input events: the quit request, a key press, a key release, anything else. */
  datatype Event = Quit | KeyPress(sym: Keycode) | KeyRelease(sym: Keycode) | OtherEvent

  /** What the menu asks of the outside world. `Launch` is the
      suspend / execute / relaunch of an item's command; `RunMixer` is the
      `system()` call that sets the master volume. */
  datatype Action =
    | PlaySound(file: string, volume: nat)
    | PlayMusic(file: string, volume: nat)
    | RunMixer(command: string)
    | Launch(command: string)

  /** The fields of the menu object plus the locals of its run loop. */
  datatype Menu = Menu(
    items: seq<Item>,
    selectedId: int,
    activationKeys: seq<Keycode>,
    playlist: seq<string>,
    musicId: int,
    selectSound: string,
    backgroundImage: string,
    volumeUpImage: string,
    volumeDownImage: string,
    masterVolume: int,
    volumeUpTimer: real,
    volumeDownTimer: real,
    running: bool,
    keyDown: bool,
    animationTime: real)

  /** The text of the template before and after its placeholder. */
  const VolumeCommandHead: string := "amixer -D pulse sset Master "
  const VolumeCommandTail: string := "%"

  /** The mixer command for a given volume: the template with its
      placeholder replaced by the decimal volume. */
  function VolumeCommand(volume: int): string
  {
    VolumeCommandHead + Int2Str(volume) + VolumeCommandTail
  }

  /** The template holds its placeholder exactly once, after the head. */
  lemma VolumeTemplateHasOnePlaceholder()
    ensures MasterVolumeCommand == VolumeCommandHead + MasterVolumeCommandKey + VolumeCommandTail
    ensures forall i :: OccursAt(MasterVolumeCommand, MasterVolumeCommandKey, i) <==> i == |VolumeCommandHead|
  {
    var t := MasterVolumeCommand;
    assert t == VolumeCommandHead + MasterVolumeCommandKey + VolumeCommandTail;
    assert '<' !in VolumeCommandHead;
    assert '<' !in MasterVolumeCommandKey[1..] + VolumeCommandTail;
    forall i: nat | OccursAt(t, MasterVolumeCommandKey, i)
      ensures i == |VolumeCommandHead|
    {
      assert t[i..i + 5][0] == '<';
      assert t[i] == '<';
    }
    assert t[28..33] == MasterVolumeCommandKey;
  }

  /** Substituting the decimal volume into the template yields the mixer
      command, e.g. "amixer -D pulse sset Master 50%". */
  lemma VolumeCommandShape(volume: int)
    ensures Substitute(MasterVolumeCommand, MasterVolumeCommandKey, Int2Str(volume)) == VolumeCommand(volume)
  {
    VolumeTemplateHasOnePlaceholder();
    var t := MasterVolumeCommand;
    var h := |VolumeCommandHead|;
    SubstituteSkipsPrefix(t, MasterVolumeCommandKey, Int2Str(volume), h);
    assert t[..h] == VolumeCommandHead;
    assert t[h..] == MasterVolumeCommandKey + VolumeCommandTail;
    assert (MasterVolumeCommandKey + VolumeCommandTail)[5..] == VolumeCommandTail;
  }

  /** `update_sound`: render the volume, substitute it into the template,
      and hand the command to the shell. */
  method UpdateSound(volume: int) returns (command: string)
    ensures command == VolumeCommand(volume)
  {
    var val := Int2Str(volume);
    command := ReplaceAll(MasterVolumeCommand, MasterVolumeCommandKey, val);
    VolumeCommandShape(volume);
  }

  lemma InitialVolumeCommand()
    ensures VolumeCommand(InitialMasterVolume) == "amixer -D pulse sset Master 50%"
  {
    assert Int2Str(50) == "50";
  }

  /** A `char` read from the configuration, widened to a key code. Whether
      `char` is signed is implementation-defined; the model chooses a signed
      `char`, under which bytes from 0x80 up become negative codes. */
  function CharToKeycode(b: uint8): (k: Keycode)
    ensures -128 <= k < 128
    ensures b < 128 ==> k == b as int
    ensures b >= 128 ==> k < 0
  {
    if b < 128 then b as int else b as int - 256
  }

  /** An activation key string maps to its first character, or 0 when empty. */
  function KeyFromConfig(s: seq<uint8>): (k: Keycode)
    ensures -128 <= k < 128
    ensures |s| == 0 ==> k == 0
    ensures |s| > 0 ==> k == CharToKeycode(s[0])
  {
    if |s| > 0 then CharToKeycode(s[0]) else 0
  }

  /** The activation keys of a configuration, in order. */
  function ConfigKeys(keys: seq<seq<uint8>>): (r: seq<Keycode>)
    ensures |r| == |keys|
    ensures forall i :: 0 <= i < |keys| ==> r[i] == KeyFromConfig(keys[i])
  {
    seq(|keys|, i requires 0 <= i < |keys| => KeyFromConfig(keys[i]))
  }

  /** Every activation key is a widened `char`, so none is an arrow key. */
  predicate KeysInCharRange(keys: seq<Keycode>)
  {
    forall i :: 0 <= i < |keys| ==> -128 <= keys[i] < 128
  }

  /** A configured ASCII key is found again as its own key code. */
  lemma KeyFromConfigRoundTrip(c: uint8, rest: seq<uint8>)
    requires c < 128
    ensures KeyFromConfig([c] + rest) == c as int
  {
  }

  /** The items of a configuration: name and command copied, the loader's
      width, the common height, and only the first item preselected. */
  function LoadItems(cfgs: seq<ItemConfig>): (r: seq<Item>)
    ensures |r| == |cfgs|
    ensures forall i :: 0 <= i < |r| ==>
      && r[i].name == cfgs[i].image
      && r[i].command == cfgs[i].command
      && r[i].baseWidth == cfgs[i].pixelWidth
      && r[i].baseHeight == MaxItemPixelHeight
      && (r[i].selected <==> i == 0)
  {
    seq(|cfgs|, i requires 0 <= i < |cfgs| =>
      DefaultItem.(name := cfgs[i].image, command := cfgs[i].command,
                   baseWidth := cfgs[i].pixelWidth, baseHeight := MaxItemPixelHeight,
                   selected := i == 0))
  }

  /** Loading media from a configuration. `roll` stands for `rand()`; the
      music cursor starts at `roll % |musics|`, which is undefined for an
      empty playlist. Volume, timers, the selection index and the run-loop
      state are untouched. */
  function Load(m: Menu, cfg: Config, roll: nat): (r: Menu)
    requires |cfg.musics| > 0
    ensures r.items == LoadItems(cfg.items)
    ensures r.activationKeys == ConfigKeys(cfg.keys) && KeysInCharRange(r.activationKeys)
    ensures r.playlist == cfg.musics && 0 <= r.musicId < |r.playlist|
    ensures r.selectSound == cfg.selectSound
    ensures r.backgroundImage == cfg.backgroundImage
    ensures r.volumeUpImage == cfg.volumeUpImage && r.volumeDownImage == cfg.volumeDownImage
    ensures r.(items := m.items, activationKeys := m.activationKeys, playlist := m.playlist,
               musicId := m.musicId, selectSound := m.selectSound, backgroundImage := m.backgroundImage,
               volumeUpImage := m.volumeUpImage, volumeDownImage := m.volumeDownImage) == m
  {
    m.(items := LoadItems(cfg.items),
       activationKeys := ConfigKeys(cfg.keys),
       playlist := cfg.musics,
       musicId := roll % |cfg.musics|,
       selectSound := cfg.selectSound,
       backgroundImage := cfg.backgroundImage,
       volumeUpImage := cfg.volumeUpImage,
       volumeDownImage := cfg.volumeDownImage)
  }

  /** Reloading from a configuration that fits keeps the state bounded and
      the configuration fitting. */
  lemma LoadKeepsBounded(m: Menu, cfg: Config, roll: nat)
    requires Bounded(m) && Fits(m, cfg)
    ensures Bounded(Load(m, cfg, roll)) && Fits(Load(m, cfg, roll), cfg)
  {
  }

  /** Loading twice from the same configuration is loading once. */
  lemma LoadIdempotent(m: Menu, cfg: Config, roll: nat)
    requires |cfg.musics| > 0
    ensures Load(Load(m, cfg, roll), cfg, roll) == Load(m, cfg, roll)
  {
  }

  /** The menu object as constructed, with the run loop's locals initialised. */
  const Initial: Menu := Menu(
    items := [], selectedId := 0, activationKeys := [], playlist := [], musicId := 0,
    selectSound := "", backgroundImage := "", volumeUpImage := "", volumeDownImage := "",
    masterVolume := InitialMasterVolume, volumeUpTimer := TimerOff, volumeDownTimer := TimerOff,
    running := true, keyDown := false, animationTime := 0.0)

  /** Start-up: bringing up sound runs the mixer command for the initial
      volume, then the media are loaded. */
  function Start(cfg: Config, roll: nat): (r: (Menu, seq<Action>))
    requires |cfg.musics| > 0
    ensures r.1 == [RunMixer(VolumeCommand(InitialMasterVolume))]
    ensures r.0.selectedId == 0 && r.0.masterVolume == InitialMasterVolume
    ensures r.0.volumeUpTimer <= 0.0 && r.0.volumeDownTimer <= 0.0
    ensures r.0.running && !r.0.keyDown && r.0.animationTime == 0.0
    ensures r.0.items == LoadItems(cfg.items)
    ensures r.0.activationKeys == ConfigKeys(cfg.keys)
    ensures r.0.playlist == cfg.musics && 0 <= r.0.musicId < |r.0.playlist|
    ensures r.0.selectSound == cfg.selectSound && r.0.backgroundImage == cfg.backgroundImage
    ensures r.0.volumeUpImage == cfg.volumeUpImage && r.0.volumeDownImage == cfg.volumeDownImage
    ensures |cfg.items| > 0 ==> Inv(r.0) && Fits(r.0, cfg)
  {
    (Load(Initial, cfg, roll), [RunMixer(VolumeCommand(Initial.masterVolume))])
  }

  /** Exactly the item at `k` carries the selected flag. */
  predicate SelectionSynced(items: seq<Item>, k: int)
  {
    forall i :: 0 <= i < |items| ==> (items[i].selected <==> i == k)
  }

  /** The number of items flagged selected. */
  function CountSelected(items: seq<Item>): nat
  {
    if |items| == 0 then 0
    else (if items[0].selected then 1 else 0) + CountSelected(items[1..])
  }

  /** When the flags follow an in-range index, exactly one item is selected. */
  lemma {:induction false} SyncedMeansExactlyOne(items: seq<Item>, k: int)
    requires 0 <= k < |items|
    requires SelectionSynced(items, k)
    ensures CountSelected(items) == 1
    decreases |items|
  {
    if k == 0 {
      NoneSelected(items[1..]);
    } else {
      assert SelectionSynced(items[1..], k - 1) by {
        forall i | 0 <= i < |items| - 1
          ensures items[1..][i].selected <==> i == k - 1
        {
          assert items[1..][i] == items[i + 1];
        }
      }
      SyncedMeansExactlyOne(items[1..], k - 1);
    }
  }

  lemma {:induction false} NoneSelected(items: seq<Item>)
    requires forall i :: 0 <= i < |items| ==> !items[i].selected
    ensures CountSelected(items) == 0
    decreases |items|
  {
    if |items| > 0 {
      assert forall i :: 0 <= i < |items| - 1 ==> items[1..][i] == items[i + 1];
      NoneSelected(items[1..]);
    }
  }

  /** The reachable states, apart from the selection flags: the selection
      is in range, the music cursor is in range, the volume is a multiple of
      the delta within its bounds, at most one overlay timer is running, and
      the activation keys are widened characters. */
  predicate Bounded(m: Menu)
  {
    && 0 <= m.selectedId < |m.items|
    && 0 <= m.musicId < |m.playlist|
    && MasterVolumeMin <= m.masterVolume <= MasterVolumeMax
    && m.masterVolume % MasterVolumeDelta == 0
    && !(m.volumeUpTimer > 0.0 && m.volumeDownTimer > 0.0)
    && KeysInCharRange(m.activationKeys)
  }

  /** The reachable states: bounded, and the flags mirror the index. */
  predicate Inv(m: Menu)
  {
    Bounded(m) && SelectionSynced(m.items, m.selectedId)
  }

  /** A configuration that a relaunch can read back without leaving the
      selection index stale: a non-empty playlist and at least as many items. */
  predicate Fits(m: Menu, cfg: Config)
  {
    |cfg.musics| > 0 && |m.items| <= |cfg.items|
  }

  /** The header's constants are consistent: the initial volume lies in
      range on the delta grid, the timers start off, and arming one shows it. */
  lemma ConstantsConsistent()
    ensures MasterVolumeMin <= InitialMasterVolume <= MasterVolumeMax
    ensures InitialMasterVolume % MasterVolumeDelta == 0
    ensures MasterVolumeMin % MasterVolumeDelta == 0 && MasterVolumeMax % MasterVolumeDelta == 0
    ensures !(TimerOff > 0.0) && VolumeChangeTimerMax > 0.0
    ensures !DefaultItem.selected && DefaultItem.baseWidth == 0 && DefaultItem.baseHeight == 0
    ensures Initial.selectedId == 0 && Initial.musicId == 0
  {
  }
}

=== FILE: music.dfy ===
/** The background-music cursor: whenever nothing is playing, the track
    under the cursor starts and the cursor moves on, wrapping round. */
module Music {
  import opened Common

  /** One check of the music. The source increments the cursor and then
      reduces it modulo the playlist length. */
  function Tick(playlist: seq<string>, cursor: int, playing: bool): (r: (int, Option<string>))
    requires |playlist| > 0 ==> 0 <= cursor < |playlist|
    ensures |playlist| > 0 ==> 0 <= r.0 < |playlist|
    ensures r.1.Some? <==> !playing && |playlist| > 0
    ensures r.1.Some? ==> r.1.value == playlist[cursor]
    ensures r.1.None? ==> r.0 == cursor
  {
    if !playing && |playlist| > 0 then
      var next := cursor + 1;
      (next % |playlist|, Some(playlist[cursor]))
    else
      (cursor, None)
  }

  /** `n` checks during which the previous track has always finished: the
      final cursor and the tracks started, in order. */
  function IdleTicks(playlist: seq<string>, cursor: int, n: nat): (r: (int, seq<string>))
    requires |playlist| > 0 && 0 <= cursor < |playlist|
    decreases n
  {
    if n == 0 then (cursor, [])
    else
      var t := Tick(playlist, cursor, false);
      var rest := IdleTicks(playlist, t.0, n - 1);
      (rest.0, [t.1.value] + rest.1)
  }

  lemma MulPositive(d: int, len: int)
    requires d > 0 && len > 0
    ensures d * len >= len
  {
  }

  /** A remainder is determined by any quotient-remainder decomposition. */
  lemma ModUnique(x: int, len: int, a: int, r: int)
    requires len > 0 && 0 <= r < len
    requires x == a * len + r
    ensures x % len == r
  {
    var b, s := x / len, x % len;
    assert (a - b) * len == s - r;
    if a - b > 0 {
      MulPositive(a - b, len);
    } else if a - b < 0 {
      MulPositive(b - a, len);
    }
  }

  /** Adding the modulus does not change a remainder. */
  lemma ModAddLen(len: int, j: int)
    requires len > 0
    ensures (len + j) % len == j % len
  {
    var q, r := j / len, j % len;
    assert len + j == (q + 1) * len + r;
    ModUnique(len + j, len, q + 1, r);
  }

  /** Wrapping the cursor before or after adding gives the same position. */
  lemma WrapShift(len: int, c: int, j: nat)
    requires 0 <= c < len
    ensures ((c + 1) % len + j) % len == (c + 1 + j) % len
  {
    if c + 1 == len {
      ModAddLen(len, j);
    } else {
      assert (c + 1) % len == c + 1;
    }
  }

  /** Repeated idle checks cycle through the playlist in order from the
      cursor: the j-th track started is `playlist[(cursor + j) mod len]`. */
  lemma {:induction false} IdleTicksCycle(playlist: seq<string>, cursor: int, n: nat)
    requires |playlist| > 0 && 0 <= cursor < |playlist|
    ensures var r := IdleTicks(playlist, cursor, n);
      && |r.1| == n
      && r.0 == (cursor + n) % |playlist|
      && forall j :: 0 <= j < n ==> r.1[j] == playlist[(cursor + j) % |playlist|]
    decreases n
  {
    var len := |playlist|;
    if n == 0 {
      ModUnique(cursor, len, 0, cursor);
    } else {
      var next := (cursor + 1) % len;
      var rest := IdleTicks(playlist, next, n - 1);
      IdleTicksCycle(playlist, next, n - 1);
      var r := IdleTicks(playlist, cursor, n);
      assert r.1 == [playlist[cursor]] + rest.1;
      WrapShift(len, cursor, n - 1);
      forall j | 0 <= j < n
        ensures r.1[j] == playlist[(cursor + j) % len]
      {
        if j == 0 {
          ModUnique(cursor, len, 0, cursor);
        } else {
          WrapShift(len, cursor, j - 1);
        }
      }
    }
  }

  /** While a track is playing, no check starts anything or moves the cursor. */
  lemma PlayingHolds(playlist: seq<string>, cursor: int)
    requires |playlist| > 0 ==> 0 <= cursor < |playlist|
    ensures Tick(playlist, cursor, true) == (cursor, None)
  {
  }
}

=== FILE: selection.dfy ===
/** Handling of one input event: the key-repeat latch, the navigation and
    volume keys, the activation of the selected item, and the re-marking of
    the selection flags after every handled press. */
module Selection {
  import opened ArcadeMenu

  /** The flag loop after every handled press: `items[i].selected = i == k`. */
  function SyncFlags(items: seq<Item>, k: int): (r: seq<Item>)
    ensures |r| == |items|
    ensures SelectionSynced(r, k)
    ensures forall i :: 0 <= i < |r| ==> r[i].(selected := items[i].selected) == items[i]
  {
    seq(|items|, i requires 0 <= i < |items| => items[i].(selected := i == k))
  }

  /** The actions of `n` dispatches of one command: each suspends the menu
      and runs the command, then bringing sound back up reissues the mixer
      command `mixer` for the unchanged volume. */
  function Relaunches(command: string, mixer: string, n: nat): (r: seq<Action>)
    ensures |r| == 2 * n
    ensures n > 0 ==> r[0] == Launch(command) && r[1] == RunMixer(mixer)
  {
    if n == 0 then [] else [Launch(command), RunMixer(mixer)] + Relaunches(command, mixer, n - 1)
  }

  /** Suspend, run `command`, and re-initialise: the media are read again
      from the configuration, while the selection index, the volume, the
      overlay timers and the run loop's locals survive. The command runs
      first; bringing sound back up then reissues the mixer command for the
      unchanged volume. */
  function Relaunch(m: Menu, command: string, cfg: Config, roll: nat): (r: (Menu, seq<Action>))
    requires |cfg.musics| > 0
    ensures r.0.items == LoadItems(cfg.items)
    ensures r.0.activationKeys == ConfigKeys(cfg.keys)
    ensures r.0.playlist == cfg.musics && 0 <= r.0.musicId < |r.0.playlist|
    ensures r.0.selectSound == cfg.selectSound && r.0.backgroundImage == cfg.backgroundImage
    ensures r.0.volumeUpImage == cfg.volumeUpImage && r.0.volumeDownImage == cfg.volumeDownImage
    ensures r.0.selectedId == m.selectedId && r.0.masterVolume == m.masterVolume
    ensures r.0.volumeUpTimer == m.volumeUpTimer && r.0.volumeDownTimer == m.volumeDownTimer
    ensures r.0.running == m.running && r.0.keyDown == m.keyDown && r.0.animationTime == m.animationTime
    ensures Bounded(m) && Fits(m, cfg) ==> Bounded(r.0) && Fits(r.0, cfg)
    ensures |r.1| == 2 && r.1[0] == Launch(command) && r.1[1] == RunMixer(VolumeCommand(m.masterVolume))
  {
    (Load(m, cfg, roll), [Launch(command), RunMixer(VolumeCommand(m.masterVolume))])
  }

  /** How many times the activation-key loop dispatches, scanning `keys`
      from index `i`. After a dispatch the menu has reloaded, so the scan
      continues at the next index of the reloaded list `reloadKeys`. */
  function DispatchesFrom(keys: seq<Keycode>, i: nat, sym: Keycode, reloadKeys: seq<Keycode>): nat
    decreases if keys == reloadKeys then 0 else 1, |keys| - i
  {
    if i >= |keys| then 0
    else if keys[i] == sym then 1 + DispatchesFrom(reloadKeys, i + 1, sym, reloadKeys)
    else DispatchesFrom(keys, i + 1, sym, reloadKeys)
  }

  /** The activation-key loop: every entry equal to the pressed key
      dispatches the command captured before the key was handled. */
  function ActivationLoop(m: Menu, i: nat, sym: Keycode, command: string, cfg: Config, roll: nat): (r: (Menu, seq<Action>))
    requires DispatchesFrom(m.activationKeys, i, sym, ConfigKeys(cfg.keys)) > 0 ==> |cfg.musics| > 0
    ensures var n := DispatchesFrom(m.activationKeys, i, sym, ConfigKeys(cfg.keys));
      && r.1 == Relaunches(command, VolumeCommand(m.masterVolume), n)
      && r.0 == (if n > 0 then Load(m, cfg, roll) else m)
    decreases if m.activationKeys == ConfigKeys(cfg.keys) then 0 else 1, |m.activationKeys| - i
  {
    if i >= |m.activationKeys| then (m, [])
    else if m.activationKeys[i] == sym then
      var first := Relaunch(m, command, cfg, roll);
      var rest := ActivationLoop(first.0, i + 1, sym, command, cfg, roll);
      LoadIdempotent(m, cfg, roll);
      (rest.0, first.1 + rest.1)
    else
      ActivationLoop(m, i + 1, sym, command, cfg, roll)
  }

  /** The number of dispatches a press of `sym` causes: one for Return (which
      reloads the keys before the loop scans them), plus one per matching
      entry of the activation-key loop. */
  function PressDispatches(m: Menu, sym: Keycode, cfg: Config): nat
  {
    var reloadKeys := ConfigKeys(cfg.keys);
    if sym == KeyReturn then 1 + DispatchesFrom(reloadKeys, 0, sym, reloadKeys)
    else DispatchesFrom(m.activationKeys, 0, sym, reloadKeys)
  }

  /** Left saturates at the first item. */
  function MoveLeft(selectedId: int): (r: int)
    requires 0 <= selectedId
    ensures 0 <= r <= selectedId && (selectedId > 0 ==> r == selectedId - 1)
  {
    var s := selectedId - 1;
    if s < 0 then 0 else s
  }

  /** Right saturates at the last item. */
  function MoveRight(selectedId: int, count: nat): (r: int)
    requires 0 <= selectedId < count
    ensures selectedId <= r < count && (selectedId + 1 < count ==> r == selectedId + 1)
  {
    var s := selectedId + 1;
    if s >= count then count - 1 else s
  }

  /** Volume up adds the delta and caps at the maximum. */
  function VolumeUp(volume: int): (r: int)
    ensures r <= MasterVolumeMax
    ensures volume + MasterVolumeDelta <= MasterVolumeMax ==> r == volume + MasterVolumeDelta
    ensures volume + MasterVolumeDelta > MasterVolumeMax ==> r == MasterVolumeMax
  {
    var v := volume + MasterVolumeDelta;
    if v > MasterVolumeMax then MasterVolumeMax else v
  }

  /** Volume down subtracts the delta and floors at the minimum. */
  function VolumeDown(volume: int): (r: int)
    ensures r >= MasterVolumeMin
    ensures volume - MasterVolumeDelta >= MasterVolumeMin ==> r == volume - MasterVolumeDelta
    ensures volume - MasterVolumeDelta < MasterVolumeMin ==> r == MasterVolumeMin
  {
    var v := volume - MasterVolumeDelta;
    if v < MasterVolumeMin then MasterVolumeMin else v
  }

  /** The `switch` on the pressed key. */
  function KeySwitch(m: Menu, sym: Keycode, command: string, cfg: Config, roll: nat): (r: (Menu, seq<Action>))
    requires 0 <= m.selectedId < |m.items|
    requires sym == KeyReturn ==> |cfg.musics| > 0
    ensures sym != KeyReturn ==> r.0.(selectedId := m.selectedId, animationTime := m.animationTime,
      masterVolume := m.masterVolume, volumeUpTimer := m.volumeUpTimer, volumeDownTimer := m.volumeDownTimer) == m
    ensures sym == KeyReturn ==> r.0 == Load(m, cfg, roll)
    ensures r.0.selectedId < |r.0.items| || sym == KeyReturn
    ensures r.0.masterVolume == m.masterVolume || sym == KeyR || sym == KeyF
    ensures r.0.running == m.running && r.0.keyDown == m.keyDown
  {
    if sym == KeyLeft then
      (m.(animationTime := 0.0, selectedId := MoveLeft(m.selectedId)),
       [PlaySound(m.selectSound, SoundVolume)])
    else if sym == KeyRight then
      (m.(animationTime := 0.0, selectedId := MoveRight(m.selectedId, |m.items|)),
       [PlaySound(m.selectSound, SoundVolume)])
    else if sym == KeyReturn then
      Relaunch(m, command, cfg, roll)
    else if sym == KeyR then
      var v := VolumeUp(m.masterVolume);
      (m.(masterVolume := v, volumeUpTimer := VolumeChangeTimerMax, volumeDownTimer := TimerOff),
       [RunMixer(VolumeCommand(v))])
    else if sym == KeyF then
      var v := VolumeDown(m.masterVolume);
      (m.(masterVolume := v, volumeUpTimer := TimerOff, volumeDownTimer := VolumeChangeTimerMax),
       [RunMixer(VolumeCommand(v))])
    else
      (m, [])
  }

  /** What the source needs to handle an unlatched press: an item under the
      index (it reads that item's command first), and a playlist to reload
      if the press dispatches. */
  predicate PressDefined(m: Menu, sym: Keycode, cfg: Config)
  {
    && 0 <= m.selectedId < |m.items|
    && (PressDispatches(m, sym, cfg) > 0 ==> |cfg.musics| > 0)
  }

  /** One handled press: capture the selected command, run the switch, run
      the activation-key loop, then re-mark the flags from the index. */
  function HandleKey(m: Menu, sym: Keycode, cfg: Config, roll: nat): (r: (Menu, seq<Action>))
    requires PressDefined(m, sym, cfg)
    ensures SelectionSynced(r.0.items, r.0.selectedId)
    ensures r.0.running == m.running && r.0.keyDown == m.keyDown
  {
    var command := m.items[m.selectedId].command;
    var s := KeySwitch(m, sym, command, cfg, roll);
    var a := ActivationLoop(s.0, 0, sym, command, cfg, roll);
    (a.0.(items := SyncFlags(a.0.items, a.0.selectedId)), s.1 + a.1)
  }

  /** Whether the source's behaviour on event `e` is defined. */
  predicate StepDefined(m: Menu, e: Event, cfg: Config)
  {
    e.KeyPress? && !m.keyDown ==> PressDefined(m, e.sym, cfg)
  }

  /** One polled event. Only the first press while no key is held acts; any
      event other than a press or quit releases the latch; quit only stops
      the loop. `cfg` and `roll` are what a relaunch reads back. */
  function Step(m: Menu, e: Event, cfg: Config, roll: nat): (r: (Menu, seq<Action>))
    requires StepDefined(m, e, cfg)
    ensures r.0.running == (m.running && !e.Quit?)
    ensures r.0.keyDown == (if e.KeyPress? then true else if e.Quit? then m.keyDown else false)
    ensures e.KeyPress? && !m.keyDown ==> SelectionSynced(r.0.items, r.0.selectedId)
    ensures !(e.KeyPress? && !m.keyDown) ==> r.1 == [] && r.0.items == m.items && r.0.selectedId == m.selectedId
  {
    match e
    case Quit => (m.(running := false), [])
    case KeyPress(sym) =>
      if m.keyDown then (m, [])
      else
        var h := HandleKey(m, sym, cfg, roll);
        (h.0.(keyDown := true), h.1)
    case KeyRelease(_) => (m.(keyDown := false), [])
    case OtherEvent => (m.(keyDown := false), [])
  }

  /** A press while the latch is set changes nothing and does nothing. */
  lemma LatchSuppressesRepeat(m: Menu, sym: Keycode, cfg: Config, roll: nat)
    requires m.keyDown
    ensures Step(m, KeyPress(sym), cfg, roll) == (m, [])
  {
  }

  /** A release or any other non-quit event only clears the latch. */
  lemma ReleaseClearsLatch(m: Menu, e: Event, cfg: Config, roll: nat)
    requires e.KeyRelease? || e.OtherEvent?
    ensures Step(m, e, cfg, roll) == (m.(keyDown := false), [])
  {
  }

  /** Quit only stops the loop; the latch and everything else stay. */
  lemma QuitOnlyStopsRunning(m: Menu, cfg: Config, roll: nat)
    ensures Step(m, Quit, cfg, roll) == (m.(running := false), [])
  {
  }

  /** Left decrements the index, saturating at 0, resets the animation and
      requests the select sound even when already at the first item. */
  lemma LeftSaturates(m: Menu, cfg: Config, roll: nat)
    requires Inv(m) && !m.keyDown
    ensures StepDefined(m, KeyPress(KeyLeft), cfg)
    ensures var r := Step(m, KeyPress(KeyLeft), cfg, roll);
      && r.0.selectedId == (if m.selectedId == 0 then 0 else m.selectedId - 1)
      && r.0.animationTime == 0.0
      && r.1 == [PlaySound(m.selectSound, SoundVolume)]
      && r.0.items == SyncFlags(m.items, r.0.selectedId)
      && r.0.masterVolume == m.masterVolume && r.0.activationKeys == m.activationKeys
  {
    NoDispatchOutsideCharRange(m.activationKeys, 0, KeyLeft, ConfigKeys(cfg.keys));
  }

  /** Right increments the index, saturating at the last item, with the same
      side effects as Left. */
  lemma RightSaturates(m: Menu, cfg: Config, roll: nat)
    requires Inv(m) && !m.keyDown
    ensures StepDefined(m, KeyPress(KeyRight), cfg)
    ensures var r := Step(m, KeyPress(KeyRight), cfg, roll);
      && r.0.selectedId == (if m.selectedId == |m.items| - 1 then m.selectedId else m.selectedId + 1)
      && r.0.animationTime == 0.0
      && r.1 == [PlaySound(m.selectSound, SoundVolume)]
      && r.0.items == SyncFlags(m.items, r.0.selectedId)
      && r.0.masterVolume == m.masterVolume && r.0.activationKeys == m.activationKeys
  {
    NoDispatchOutsideCharRange(m.activationKeys, 0, KeyRight, ConfigKeys(cfg.keys));
  }

  /** An arrow key code lies outside the range of widened characters, so the
      activation-key loop never matches it. */
  lemma {:induction false} NoDispatchOutsideCharRange(keys: seq<Keycode>, i: nat, sym: Keycode, reloadKeys: seq<Keycode>)
    requires KeysInCharRange(keys) && KeysInCharRange(reloadKeys)
    requires !(-128 <= sym < 128)
    ensures DispatchesFrom(keys, i, sym, reloadKeys) == 0
    decreases |keys| - i
  {
    if i < |keys| {
      NoDispatchOutsideCharRange(keys, i + 1, sym, reloadKeys);
    }
  }

  /** Volume up: the volume rises by the delta, capped at the maximum; the
      up overlay is armed and the down overlay disarmed; the first action is
      the mixer command for the new volume. A key also configured for
      activation dispatches afterwards, which changes none of this. */
  lemma VolumeUpArmsOverlay(m: Menu, cfg: Config, roll: nat)
    requires StepDefined(m, KeyPress(KeyR), cfg) && !m.keyDown
    ensures var r := Step(m, KeyPress(KeyR), cfg, roll);
      && r.0.masterVolume == (if m.masterVolume + MasterVolumeDelta > MasterVolumeMax then MasterVolumeMax else m.masterVolume + MasterVolumeDelta)
      && r.0.volumeUpTimer == VolumeChangeTimerMax && r.0.volumeDownTimer == TimerOff
      && |r.1| > 0 && r.1[0] == RunMixer(VolumeCommand(r.0.masterVolume))
      && (MasterVolumeMin <= m.masterVolume <= MasterVolumeMax ==> MasterVolumeMin <= r.0.masterVolume <= MasterVolumeMax)
  {
  }

  /** Volume down mirrors volume up. */
  lemma VolumeDownArmsOverlay(m: Menu, cfg: Config, roll: nat)
    requires StepDefined(m, KeyPress(KeyF), cfg) && !m.keyDown
    ensures var r := Step(m, KeyPress(KeyF), cfg, roll);
      && r.0.masterVolume == (if m.masterVolume - MasterVolumeDelta < MasterVolumeMin then MasterVolumeMin else m.masterVolume - MasterVolumeDelta)
      && r.0.volumeUpTimer == TimerOff && r.0.volumeDownTimer == VolumeChangeTimerMax
      && |r.1| > 0 && r.1[0] == RunMixer(VolumeCommand(r.0.masterVolume))
      && (MasterVolumeMin <= m.masterVolume <= MasterVolumeMax ==> MasterVolumeMin <= r.0.masterVolume <= MasterVolumeMax)
  {
  }

  /** A press of Return or of a configured activation key dispatches the
      command of the item selected before the press, once per dispatch. When
      `r` or `f` is also an activation key, the volume changes first and the
      dispatches follow. The reload keeps the selection index, which the
      flag loop then re-marks, so the first item's load-time preselection
      does not survive. Left and Right are left out: they move the index,
      and as arrow codes they never match an activation key (see
      `NoDispatchOutsideCharRange`). */
  lemma ActivationDispatchesSelected(m: Menu, sym: Keycode, cfg: Config, roll: nat)
    requires StepDefined(m, KeyPress(sym), cfg) && !m.keyDown
    requires sym != KeyLeft && sym != KeyRight
    requires PressDispatches(m, sym, cfg) > 0
    ensures var r := Step(m, KeyPress(sym), cfg, roll);
      var v := if sym == KeyR then VolumeUp(m.masterVolume)
               else if sym == KeyF then VolumeDown(m.masterVolume)
               else m.masterVolume;
      && r.0.masterVolume == v
      && r.1 == (if sym == KeyR || sym == KeyF then [RunMixer(VolumeCommand(v))] else [])
                + Relaunches(m.items[m.selectedId].command, VolumeCommand(v), PressDispatches(m, sym, cfg))
      && r.0.selectedId == m.selectedId
      && r.0.items == SyncFlags(LoadItems(cfg.items), m.selectedId)
      && r.0.playlist == cfg.musics && r.0.activationKeys == ConfigKeys(cfg.keys)
  {
    var command := m.items[m.selectedId].command;
    if sym == KeyReturn {
      LoadIdempotent(m, cfg, roll);
      RelaunchesSplit(command, VolumeCommand(m.masterVolume), 1, DispatchesFrom(ConfigKeys(cfg.keys), 0, sym, ConfigKeys(cfg.keys)));
    }
  }

  lemma {:induction false} RelaunchesSplit(command: string, mixer: string, a: nat, b: nat)
    ensures Relaunches(command, mixer, a) + Relaunches(command, mixer, b) == Relaunches(command, mixer, a + b)
    decreases a
  {
    if a > 0 {
      RelaunchesSplit(command, mixer, a - 1, b);
      assert Relaunches(command, mixer, a) + Relaunches(command, mixer, b)
        == [Launch(command), RunMixer(mixer)] + (Relaunches(command, mixer, a - 1) + Relaunches(command, mixer, b));
    }
  }

  /** When the reloaded keys are the keys already in force, the loop
      dispatches once per occurrence of the pressed key: a key listed twice
      dispatches twice. */
  lemma {:induction false} DispatchesCountOccurrences(keys: seq<Keycode>, i: nat, sym: Keycode)
    requires i <= |keys|
    ensures DispatchesFrom(keys, i, sym, keys) == multiset(keys[i..])[sym]
    decreases |keys| - i
  {
    if i < |keys| {
      DispatchesCountOccurrences(keys, i + 1, sym);
      assert keys[i..] == [keys[i]] + keys[i + 1..];
    }
  }

  /** With an unchanged configuration, a press dispatches once for Return
      plus once per occurrence among the activation keys. */
  lemma PressDispatchesWhenKeysUnchanged(m: Menu, sym: Keycode, cfg: Config)
    requires ConfigKeys(cfg.keys) == m.activationKeys
    ensures PressDispatches(m, sym, cfg) == (if sym == KeyReturn then 1 else 0) + multiset(m.activationKeys)[sym]
  {
    DispatchesCountOccurrences(m.activationKeys, 0, sym);
    assert m.activationKeys[0..] == m.activationKeys;
  }

  /** The switch keeps the state bounded: the index stays on an item, the
      volume stays on the delta grid within its bounds, and arming one
      overlay disarms the other. */
  lemma KeySwitchKeepsBounded(m: Menu, sym: Keycode, command: string, cfg: Config, roll: nat)
    requires Bounded(m) && Fits(m, cfg)
    ensures var r := KeySwitch(m, sym, command, cfg, roll);
      Bounded(r.0) && Fits(r.0, cfg)
  {
    if sym == KeyReturn {
      LoadKeepsBounded(m, cfg, roll);
    }
  }

  /** A handled press keeps the invariant. */
  lemma PressPreservesInv(m: Menu, sym: Keycode, cfg: Config, roll: nat)
    requires Inv(m) && Fits(m, cfg)
    ensures PressDefined(m, sym, cfg)
    ensures var r := HandleKey(m, sym, cfg, roll);
      Inv(r.0) && Fits(r.0, cfg)
  {
    var command := m.items[m.selectedId].command;
    var s := KeySwitch(m, sym, command, cfg, roll);
    KeySwitchKeepsBounded(m, sym, command, cfg, roll);
    var a := ActivationLoop(s.0, 0, sym, command, cfg, roll);
    if DispatchesFrom(s.0.activationKeys, 0, sym, ConfigKeys(cfg.keys)) > 0 {
      LoadKeepsBounded(s.0, cfg, roll);
    }
    assert Bounded(a.0) && Fits(a.0, cfg);
  }

  /** Every event preserves the reachable-state invariant, given a
      configuration a relaunch can read back. */
  lemma StepPreservesInv(m: Menu, e: Event, cfg: Config, roll: nat)
    requires Inv(m) && Fits(m, cfg)
    ensures StepDefined(m, e, cfg)
    ensures var r := Step(m, e, cfg, roll);
      Inv(r.0) && Fits(r.0, cfg)
  {
    if e.KeyPress? && !m.keyDown {
      PressPreservesInv(m, e.sym, cfg, roll);
    }
  }

  /** After every handled press exactly one item is selected, the one under
      the index. */
  lemma PressSelectsExactlyOne(m: Menu, sym: Keycode, cfg: Config, roll: nat)
    requires Inv(m) && Fits(m, cfg) && !m.keyDown
    ensures StepDefined(m, KeyPress(sym), cfg)
    ensures var r := Step(m, KeyPress(sym), cfg, roll);
      && 0 <= r.0.selectedId < |r.0.items|
      && r.0.items[r.0.selectedId].selected
      && CountSelected(r.0.items) == 1
  {
    StepPreservesInv(m, KeyPress(sym), cfg, roll);
    var r := Step(m, KeyPress(sym), cfg, roll);
    SyncedMeansExactlyOne(r.0.items, r.0.selectedId);
  }
}

=== FILE: strings.dfy ===
/** The two string helpers of the menu: `ReplaceAll`, which fills the mixer
    command template, and `Int2Str`, which renders the volume in decimal. */
module Strings {
  import opened Common

  /** `pat` occurs in `s` starting at index `i`. */
  predicate OccursAt(s: string, pat: string, i: nat)
  {
    i + |pat| <= |s| && s[i..i + |pat|] == pat
  }

  /** `std::string::find(pat, start)`: the first index at or after `start`
      where `pat` occurs, or `None` for `npos`. */
  function Find(s: string, pat: string, start: nat): (r: Option<nat>)
    ensures r.Some? ==> start <= r.value && OccursAt(s, pat, r.value)
    ensures forall i :: start <= i && (r.None? || i < r.value) ==> !OccursAt(s, pat, i)
    decreases |s| - start
  {
    if start + |pat| > |s| then None
    else if s[start..start + |pat|] == pat then Some(start)
    else Find(s, pat, start + 1)
  }

  /** Reference definition of the substitution: scan left to right; where
      `from` occurs, emit `to` and continue after the matched text, so the
      inserted text is never scanned again and matches never overlap. */
  function Substitute(s: string, from: string, to: string): string
    requires |from| > 0
    decreases |s|
  {
    if |s| < |from| then s
    else if s[..|from|] == from then to + Substitute(s[|from|..], from, to)
    else [s[0]] + Substitute(s[1..], from, to)
  }

  /** Matches in a suffix are the matches of the whole string, shifted. */
  lemma OccursInSuffix(s: string, pat: string, k: nat, i: nat)
    requires k <= |s|
    ensures OccursAt(s[k..], pat, i) <==> OccursAt(s, pat, k + i)
  {
    if k + i + |pat| <= |s| {
      assert s[k..][i..i + |pat|] == s[k + i..k + i + |pat|];
    }
  }

  /** Where no match starts at the front, the first character is copied. */
  lemma SubstituteCopiesFirst(s: string, from: string, to: string)
    requires |from| > 0
    requires |s| > 0 && !OccursAt(s, from, 0)
    ensures Substitute(s, from, to) == [s[0]] + Substitute(s[1..], from, to)
  {
    if |s| < |from| {
      assert Substitute(s[1..], from, to) == s[1..];
      assert s == [s[0]] + s[1..];
    } else {
      assert s[0..|from|] == s[..|from|];
    }
  }

  /** A prefix in which no match starts is copied unchanged. */
  lemma {:induction false} SubstituteSkipsPrefix(s: string, from: string, to: string, j: nat)
    requires |from| > 0
    requires j <= |s|
    requires forall i :: 0 <= i < j ==> !OccursAt(s, from, i)
    ensures Substitute(s, from, to) == s[..j] + Substitute(s[j..], from, to)
    decreases j
  {
    if j == 0 {
      assert s[j..] == s;
    } else {
      SubstituteCopiesFirst(s, from, to);
      var t := s[1..];
      forall i | 0 <= i < j - 1
        ensures !OccursAt(t, from, i)
      {
        OccursInSuffix(s, from, 1, i);
      }
      SubstituteSkipsPrefix(t, from, to, j - 1);
      var rest := Substitute(t[j - 1..], from, to);
      assert t[j - 1..] == s[j..];
      assert [s[0]] + t[..j - 1] == s[..j];
      calc {
        Substitute(s, from, to);
        [s[0]] + (t[..j - 1] + rest);
        ([s[0]] + t[..j - 1]) + rest;
      }
    }
  }

  /** When `from` does not occur, the string comes back unchanged. */
  lemma SubstituteNoMatch(s: string, from: string, to: string)
    requires |from| > 0
    requires forall i :: !OccursAt(s, from, i)
    ensures Substitute(s, from, to) == s
  {
    SubstituteSkipsPrefix(s, from, to, |s|);
    assert s[|s|..] == [];
    assert s[..|s|] == s;
  }

  /** Skipping to the first match at or after `startPos` copies the text in
      between unchanged. */
  lemma SkipToMatch(str: string, from: string, to: string, startPos: nat, p: nat)
    requires |from| > 0
    requires startPos <= p <= |str|
    requires forall i :: startPos <= i < p ==> !OccursAt(str, from, i)
    ensures str[..startPos] + Substitute(str[startPos..], from, to)
      == str[..p] + Substitute(str[p..], from, to)
  {
    var rest := str[startPos..];
    forall i | 0 <= i < p - startPos
      ensures !OccursAt(rest, from, i)
    {
      OccursInSuffix(str, from, startPos, i);
    }
    SubstituteSkipsPrefix(rest, from, to, p - startPos);
    var done := Substitute(str[p..], from, to);
    assert rest[p - startPos..] == str[p..];
    assert str[..startPos] + rest[..p - startPos] == str[..p];
    calc {
      str[..startPos] + Substitute(rest, from, to);
      str[..startPos] + (rest[..p - startPos] + done);
      (str[..startPos] + rest[..p - startPos]) + done;
    }
  }

  /** The match at `p` is replaced and scanning resumes after it. */
  lemma ReplaceMatchAt(str: string, from: string, to: string, p: nat)
    requires |from| > 0
    requires OccursAt(str, from, p)
    ensures Substitute(str[p..], from, to) == to + Substitute(str[p + |from|..], from, to)
  {
    var tail := str[p..];
    assert tail[..|from|] == str[p..p + |from|];
    assert tail[|from|..] == str[p + |from|..];
  }

  /** The bookkeeping of one splice: with `next = before + to + after`,
      the text up to the end of the insertion followed by the rest's
      result equals `before` followed by the result from the match on. */
  lemma SpliceAlgebra(before: string, to: string, after: string, next: string, rest: string, fromMatch: string)
    requires next == before + to + after
    requires fromMatch == to + rest
    ensures next[|before| + |to|..] == after
    ensures next[..|before| + |to|] + rest == before + fromMatch
  {
    assert next[..|before| + |to|] == before + to;
  }

  /** One splice of the loop: replacing the match at `p` and resuming after
      the inserted text keeps the overall result the same. */
  lemma SpliceStep(str: string, from: string, to: string, p: nat, next: string)
    requires |from| > 0
    requires OccursAt(str, from, p)
    requires next == str[..p] + to + str[p + |from|..]
    ensures next[..p + |to|] + Substitute(next[p + |to|..], from, to)
      == str[..p] + Substitute(str[p..], from, to)
  {
    var after := str[p + |from|..];
    ReplaceMatchAt(str, from, to, p);
    SpliceAlgebra(str[..p], to, after, next, Substitute(after, from, to), Substitute(str[p..], from, to));
  }

  /** Once no match remains at or after `startPos`, the rest is copied. */
  lemma NoMatchAfter(str: string, from: string, to: string, startPos: nat)
    requires |from| > 0
    requires startPos <= |str|
    requires forall i :: startPos <= i ==> !OccursAt(str, from, i)
    ensures str[..startPos] + Substitute(str[startPos..], from, to) == str
  {
    var rest := str[startPos..];
    forall i: nat
      ensures !OccursAt(rest, from, i)
    {
      OccursInSuffix(str, from, startPos, i);
    }
    SubstituteNoMatch(rest, from, to);
    assert str[..startPos] + rest == str;
  }

  /** The source's in-place loop: find from the current position, splice in
      `to`, advance past the inserted text. It terminates even when `to`
      contains `from`, and computes exactly `Substitute`. */
  method ReplaceAll(str0: string, from: string, to: string) returns (str: string)
    requires |from| > 0
    ensures str == Substitute(str0, from, to)
    ensures (forall i :: !OccursAt(str0, from, i)) ==> str == str0
  {
    str := str0;
    var startPos: nat := 0;
    var found := Find(str, from, startPos);
    while found.Some?
      invariant startPos <= |str|
      invariant found == Find(str, from, startPos)
      invariant str[..startPos] + Substitute(str[startPos..], from, to) == Substitute(str0, from, to)
      decreases |str| - startPos
    {
      var p := found.value;
      SkipToMatch(str, from, to, startPos, p);
      var next := str[..p] + to + str[p + |from|..];
      SpliceStep(str, from, to, p, next);
      str := next;
      startPos := p + |to|;
      found := Find(str, from, startPos);
    }
    NoMatchAfter(str, from, to, startPos);
    if forall i :: !OccursAt(str0, from, i) {
      SubstituteNoMatch(str0, from, to);
    }
  }

  // Decimal rendering, as `std::stringstream << int` produces it.

  predicate IsDigit(c: char)
  {
    '0' <= c <= '9'
  }

  function DigitChar(d: nat): (c: char)
    requires d < 10
    ensures IsDigit(c)
  {
    (48 + d) as char
  }

  function DigitValue(c: char): (d: nat)
    requires IsDigit(c)
    ensures d < 10
  {
    (c as int) - 48
  }

  predicate AllDigits(s: string)
  {
    forall i :: 0 <= i < |s| ==> IsDigit(s[i])
  }

  /** Decimal digits of `n`, most significant first, with no leading zero. */
  function NatToStr(n: nat): (r: string)
    ensures |r| > 0 && AllDigits(r)
    ensures r[0] == '0' ==> n == 0 && r == "0"
    decreases n
  {
    if n < 10 then [DigitChar(n)]
    else NatToStr(n / 10) + [DigitChar(n % 10)]
  }

  /** `Int2Str`: a leading minus for negative values, then the digits. */
  function Int2Str(n: int): (r: string)
    ensures |r| > 0
    ensures r[0] == '-' <==> n < 0
    ensures n >= 0 ==> AllDigits(r)
    ensures n < 0 ==> AllDigits(r[1..])
    ensures n >= 0 && r[0] == '0' ==> n == 0 && r == "0"
    ensures n < 0 ==> |r| > 1 && r[1] != '0'
  {
    if n < 0 then "-" + NatToStr(-n) else NatToStr(n)
  }

  /** The value a string of decimal digits denotes. */
  function ParseNat(s: string): nat
    requires AllDigits(s)
    decreases |s|
  {
    if |s| == 0 then 0 else ParseNat(s[..|s| - 1]) * 10 + DigitValue(s[|s| - 1])
  }

  /** The value a decimal integer string denotes (the inverse reading). */
  function ParseInt(s: string): int
    requires |s| > 0
    requires if s[0] == '-' then AllDigits(s[1..]) else AllDigits(s)
  {
    if s[0] == '-' then 0 - ParseNat(s[1..]) else ParseNat(s)
  }

  lemma {:induction false} NatToStrRoundTrip(n: nat)
    ensures ParseNat(NatToStr(n)) == n
    decreases n
  {
    if n >= 10 {
      NatToStrRoundTrip(n / 10);
      var s := NatToStr(n);
      assert s[..|s| - 1] == NatToStr(n / 10);
    }
  }

  /** Reading back the rendered decimal gives the original integer. */
  lemma Int2StrRoundTrip(n: int)
    ensures ParseInt(Int2Str(n)) == n
  {
    if n < 0 {
      NatToStrRoundTrip(-n);
      assert Int2Str(n)[1..] == NatToStr(-n);
    } else {
      NatToStrRoundTrip(n);
      assert NatToStr(n)[0] != '-';
    }
  }
}
